=== FILE: README.md ===
# wslogtail core in Dafny

A model of the decision core of `wslogtail`. The service relays log lines
published on a Redis channel into per-source log files (`redistologging`).
It also serves each log to websocket viewers (`wstail`): a viewer first gets
the tail of the log file, then the live lines for that log.

The model is pure functions over finite inputs:

- **Paths** (`Paths.dfy`) covers `get_log_path`. It parses names the way
  `pathlib` does, resolves `.` and `..` lexically against a working
  directory `cwd`, and compares with `os.path.commonpath`. A name is accepted
  only when the resolved log directory is a segment-wise prefix of the
  resolved `<logdir>/<name>.log`. Otherwise the result is
  `ValueError("Please, don't try to escape.")`. A null byte in either
  string makes `resolve()` raise `ValueError("embedded null byte")` first.
- **Topics** (`Topics.dfy`) covers `split(sep, 1)[1]`, which reads the log
  name from the request path and the source from a bus channel. `None`
  stands for Python's `IndexError`.
- **Tail** (`Tail.dfy`) covers the history window: the last
  `min(79000, size)` bytes of the file.
- **Lines** (`Lines.dfy`) covers `str.splitlines` with Python's full set of
  line boundaries.
- **Session** (`Session.dfy`) covers one `wstail` session. The Redis
  subscription is a finite list of messages and the output is the list of
  `{name, line}` records sent. The session also records the exception that
  ended it, if any.
- **FileRelay** (`FileRelay.dfy`) covers the `redistologging` loop as a fold
  over the bus. It is written for any path check, and `RedisToLogging`
  instantiates it with `get_log_path`.

Two behaviours of the code are worth knowing; the model follows the code in both:

- The history bytes are decoded strictly (`decode("utf-8")`). A malformed
  window therefore raises `UnicodeDecodeError` and ends the session. It is
  not decoded leniently.
- A source whose name escapes is not cached. Its next message is resolved
  and rejected again, with one error line each time.

Also: when the configured channel prefix itself contains `:`, the source
read back from every channel is wrong (`Topics.ColonInPrefixMisattributes`).
The default prefix `wslogger` has no colon.

## Model

| member | source | states |
|---|---|---|
| Topics.AfterFirst | wslogtail/__init__.py:33 | `split(sep, 1)[1]` exists exactly when `sep` occurs. It is everything after the first `sep`: the character before it is `sep` and no earlier character is. |
| Topics.LogName | wslogtail/__init__.py:33 | The log name exists exactly when the request path has a `/`, and it is all that follows the first `/`. |
| Topics.Source | wslogtail/__init__.py:58 | A channel has a source exactly when it has a `:`, and the source is all that follows the first `:` (the same split at line 78). |
| Topics.Subscribed | wslogtail/__init__.py:38 | For a glob-free prefix, the pattern `<prefix>:*` delivers exactly the channels `<prefix>:<source>` that publishers use, for any source. |
| Topics.AfterFirstInverse | wslogtail/__init__.py:58 | A separator-free head, the separator and any tail split back to that tail, with later separators kept. |
| Topics.TopicRoundTrip | wslogtail/__init__.py:58 | The channel `<prefix>:<source>` yields back `source`, colons in it included, when `prefix` has no colon. |
| Topics.SubscribedHasSource | wslogtail/__init__.py:75-78 | For a prefix free of glob characters, every channel the pattern `<prefix>:*` delivers has a source, so line 78 never raises on one. For a colon-free prefix the source is the rest of the channel after the prefix. |
| Topics.ColonInPrefixMisattributes | wslogtail/__init__.py:58 | With a colon inside the prefix, a source is still found, but it is never the source that was published. |
| Topics.RequestPathExample | wslogtail/__init__.py:33 | The request path `/live/x` asks for the log `live/x`. |
| Text.SplitOn | wslogtail/__init__.py:19-20 | The pieces of a split are never empty as a list and contain no separator. |
| Text.JoinSplit | wslogtail/__init__.py:19-20 | Joining the pieces of a split with the separator gives the string back. |
| Text.SplitJoin | wslogtail/__init__.py:19-20 | Splitting a join of separator-free pieces gives the pieces back. |
| Text.LastPieceKeepsSuffix | wslogtail/__init__.py:20 | A separator-free suffix of the string (such as `.log`) survives at the end of the last piece. |
| Paths.Components | wslogtail/__init__.py:19-20 | pathlib keeps no empty or `.` pieces and never adds pieces. |
| Paths.Parse | wslogtail/__init__.py:19-20 | A path is absolute exactly when it starts with `/`, and every segment is a kept piece (not empty, not `.`). Which pieces they are is stated by Paths.ParseJoined and Paths.ParseAbsoluteJoined. |
| Paths.ComponentsAllKept | wslogtail/__init__.py:20 | Pieces that pathlib keeps all survive, in order. |
| Paths.ParseJoined | wslogtail/__init__.py:20 | A relative string spelled from kept, separator-free names parses back to exactly those names. |
| Paths.Join | wslogtail/__init__.py:20 | `rootpath / name` is absolute when either side is. An absolute right-hand side replaces the left; a relative one is appended to it. Either way the result ends with the right-hand side's segments. |
| Paths.Resolve | wslogtail/__init__.py:20 | `resolve()` leaves no empty, `.` or `..` segment. Paths.ResolveResolved states that it is a fixpoint on resolved paths. |
| Paths.Normalize | wslogtail/__init__.py:20 | Resolution leaves only real names: no empty, `.` or `..` segment. |
| Paths.NormalizeNames | wslogtail/__init__.py:20 | Resolving plain names just appends them. |
| Paths.NormalizeConcat | wslogtail/__init__.py:20 | Resolution proceeds left to right: resolving `a + b` is resolving `b` from where `a` ended. |
| Paths.ClimbDots | wslogtail/__init__.py:20 | `k` times `..` drops the last `k` directories and stops at the file-system root. |
| Paths.ResolveResolved | wslogtail/__init__.py:22-23 | Resolving an already resolved path changes nothing, so the second `resolve()` in the comparison is harmless. |
| Paths.CommonPrefix | wslogtail/__init__.py:22-23 | The common prefix of two paths is a prefix of both and the longest one: they differ right after it or one ends there. |
| Paths.CommonPath | wslogtail/__init__.py:22-23 | `commonpath` of a list is the longest common sub-path: a segment-wise prefix of every path in it, and every such common prefix is a prefix of it. |
| Paths.CommonPathPrefix | wslogtail/__init__.py:21-24 | `commonpath([a]) == commonpath([a, b])` holds exactly when `a` is a segment-wise prefix of `b`. |
| Paths.GetLogPath | wslogtail/__init__.py:18-26 | Accepted exactly when neither string holds a null byte and the resolved log directory is a segment-wise prefix of the resolved `<logdir>/<name>.log`. Then the result is that resolved path, and it is fully normalised. Otherwise the result is `ValueError`: "embedded null byte" when there is a null byte (raised by `resolve()` at line 20), the escape message otherwise. |
| Paths.AcceptsPlainName | wslogtail/__init__.py:18-26 | A relative name with no `..` and no null byte, under a log directory without one, is always accepted: its segments go directly below the resolved log directory. |
| Paths.AbsoluteNameIgnoresRoot | wslogtail/__init__.py:20-25 | An absolute name replaces the log directory on join, and it is accepted exactly when there is no null byte and it resolves inside the log directory. |
| Paths.ClimbOutOfRoot | wslogtail/__init__.py:20-25 | Climbing `k` directories out of the root and entering a sibling gives that sibling path, which is not under the root. |
| Paths.LastSegmentIsLogFile | wslogtail/__init__.py:20 | Whatever the name, the last segment of `<name>.log` is a separator-free name ending in `.log`. |
| Paths.NormalizeKeepsLast | wslogtail/__init__.py:20 | Resolution keeps a trailing name in last place. |
| Paths.AcceptedEndsInLog | wslogtail/__init__.py:18-26 | Every accepted path lies inside the resolved log directory and names a file ending in `.log`. |
| Paths.ComponentsDropsFront | wslogtail/__init__.py:19-20 | A piece pathlib drops at the front of the list changes nothing. |
| Paths.ParseAbsoluteJoined | wslogtail/__init__.py:19-20 | An absolute string `/` followed by kept, separator-free names joined with `/` parses back to the absolute path of exactly those names. |
| Paths.CommonPrefixLongest | wslogtail/__init__.py:22-23 | Any common prefix of two paths is a prefix of their longest common prefix. |
| Paths.ParseRooted | wslogtail/__init__.py:19 | `/d` for a single name `d` is the absolute path with the one segment `d`. |
| Paths.RootedRoot | wslogtail/__init__.py:19-22 | The log directory `/d` resolves to `[d]` whatever the working directory. |
| Paths.ParseEtcPasswd | wslogtail/__init__.py:20 | pathlib reads `../../etc/passwd.log` as two `..` followed by `etc`, `passwd.log`. |
| Paths.ParseSibling | wslogtail/__init__.py:20 | pathlib reads `../logs-evil/x.log` as one `..` followed by `logs-evil`, `x.log`. |
| Paths.CandidateUnderRooted | wslogtail/__init__.py:20 | Under `/d`, a relative name's candidate is its segments resolved from `[d]`. |
| Paths.ClimbOutRejected | wslogtail/__init__.py:20-25 | Under `/d`, climbing out with `..` and going anywhere but `d` resolves to the names that follow and is rejected. |
| Paths.AbsoluteOutsideRejected | wslogtail/__init__.py:20-25 | Under `/d`, an absolute name whose first segment is not `d` resolves to itself and is rejected. |
| Paths.NulNameRejected | wslogtail/__init__.py:20 | The name `a\0b` raises `ValueError("embedded null byte")` from `resolve()`, before the confinement comparison. |
| Paths.EtcPasswdRejected | wslogtail/__init__.py:20-25 | Log directory `/logs` with the name `../../etc/passwd` is rejected. |
| Paths.SiblingRejected | wslogtail/__init__.py:21-25 | Log directory `/logs` with the name `../logs-evil/x` is rejected, although `/logs` is a string prefix of `/logs-evil/x.log`. |
| Tail.SeekOffset | wslogtail/__init__.py:45-47 | The read offset lies within the file and at most 79000 bytes before its end. It is exactly 79000 bytes before the end whenever it is not the start of the file. |
| Tail.ReadBack | wslogtail/__init__.py:45-48 | The bytes read are exactly the last `min(79000, size)` bytes of the file. |
| Tail.ShortFileReadWhole | wslogtail/__init__.py:15 | A file of at most 79000 bytes is read whole. |
| Tail.ReadBackKeepsRecentSuffix | wslogtail/__init__.py:45-48 | Any suffix of the file that fits in 79000 bytes ends the window. |
| Tail.ReadBackAfterAppend | wslogtail/__init__.py:45-48 | After more bytes are appended, the window depends on the old file only through its old window. |
| Lines.FirstBreak | wslogtail/__init__.py:49 | The first line boundary: it is a boundary character and nothing before it is one. |
| Lines.SplitLines | wslogtail/__init__.py:49 | `splitlines` yields lines without boundary characters. It yields none exactly for empty text, and never more lines than characters. |
| Lines.SplitLinesKeepsText | wslogtail/__init__.py:49 | The lines, concatenated, are the text with only its boundary characters removed. |
| Lines.SplitTerminated | wslogtail/__init__.py:49 | Text written as lines each followed by `\n` splits back into the same lines, with no empty last line. |
| Lines.CrLfExample | wslogtail/__init__.py:49 | `a\r\nb\n` splits into `a`, `b`: `\r\n` is a single boundary. |
| Session.History | wslogtail/__init__.py:39-49 | Reading the history fails only with `UnicodeDecodeError`. |
| Session.Live | wslogtail/__init__.py:56-65 | Every live record carries the requested name, and there are no more records than messages. The phase raises `IndexError` exactly when some channel has no `:`. |
| Session.WsTail | wslogtail/__init__.py:33-65 | A request path without `/` raises `IndexError` before anything is sent. Otherwise every record carries the requested log name. |
| Session.LiveSendsMatching | wslogtail/__init__.py:56-65 | On a bus where every channel has a source, the live phase sends exactly the rendered payloads of that log's messages, in bus order, and keeps waiting. |
| Session.LiveAppend | wslogtail/__init__.py:56-65 | The live phase over two stretches of bus is the first stretch's output, then the second's, unless the first raised. |
| Session.LiveIgnoresOtherSources | wslogtail/__init__.py:59 | Inserting a message for another source anywhere changes nothing the session sends. |
| Session.HistoryThenLive | wslogtail/__init__.py:49-65 | A session that starts cleanly sends its history lines in file order, then its own live payloads in bus order, all rendered and all under the requested name. |
| Session.EscapedNameHasNoHistory | wslogtail/__init__.py:39-43 | A name that `get_log_path` rejects (it escapes, or holds a null byte) gets no history; the session goes straight to live messages. |
| Session.MissingFileHasNoHistory | wslogtail/__init__.py:43 | A log file that does not exist gives no history either. |
| Session.HistoryIsTailWindow | wslogtail/__init__.py:43-49 | An existing file contributes the lines of its decoded last `min(79000, size)` bytes. Bytes that do not decode raise `UnicodeDecodeError`. |
| Session.NoFilesNoHistory | wslogtail/__init__.py:43 | With no log files on disk, no session has history. |
| Session.NoHistoryIsLive | wslogtail/__init__.py:43-65 | A session whose history yields no lines sends exactly what its live phase sends. |
| Session.LiveOneMessage | wslogtail/__init__.py:56-65 | A single message with a source is sent, rendered under the log name, exactly when its source is the watched log. |
| Session.PublishReachesOnlyItsViewers | wslogtail/__init__.py:56-65 | A message published for `source` reaches a fresh viewer of `source` as `{source, render(payload)}`, and reaches a viewer of any other log not at all. |
| FileRelay.Append | wslogtail/__init__.py:92-96 | Logging a payload appends it verbatim to that one file. No writer, error line or other file changes. |
| FileRelay.Route | wslogtail/__init__.py:77-96 | A channel without `:` raises `IndexError`. With a check that only raises `ValueError`, that is the only failure. Cached writers are kept as they are, and the only writer that can be added is the message's source. |
| FileRelay.Relay | wslogtail/__init__.py:76-96 | With such a check the loop raises `IndexError` exactly when some channel has no `:`, and raises no `ValueError`. It prints at most one error line per message. |
| FileRelay.RouteAppendsToOwnFile | wslogtail/__init__.py:79-96 | A message for an accepted source caches the writer for its file and appends the payload verbatim to that file and no other. The cache stays valid. |
| FileRelay.RouteDropsRejected | wslogtail/__init__.py:82-86 | A message whose source the check rejects with `ValueError` is dropped with one error line (the exception's text), and no writer is cached for it. |
| FileRelay.RouteKeepsValid | wslogtail/__init__.py:79-95 | Every cached writer is the file the check gives its source, before and after a message. |
| FileRelay.RelayKeepsValid | wslogtail/__init__.py:76-96 | Over a bus where every channel has a source, the loop raises no `IndexError` or `ValueError`, and its cache stays valid. |
| FileRelay.RelayCreatesWritersLazily | wslogtail/__init__.py:79-95 | Writers exist for exactly the sources cached before and the sources on the bus that the check accepts. |
| FileRelay.RelayReportsEachRejection | wslogtail/__init__.py:82-86 | Each message whose source is rejected prints its own error line, in bus order, however often that source recurs. |
| FileRelay.RelayWritesEachPayloadToItsFile | wslogtail/__init__.py:76-96 | Each file receives exactly the payloads of the messages whose source resolves to it, verbatim and in bus order. |
| FileRelay.RedisToLogging | wslogtail/__init__.py:69-96 | The service's relay stops with an exception exactly when some channel has no `:`, and prints at most one error line per message. Its other properties are stated by FileRelay.RedisToLoggingSummary. |
| FileRelay.LogPathCheckRaisesValueError | wslogtail/__init__.py:18-26 | `get_log_path` raises nothing but `ValueError`, so the `except` clause catches every rejection. |
| FileRelay.ComplaintIsPathError | wslogtail/__init__.py:80-86 | The line printed for one message's source, if any, is the escape message or "embedded null byte", and the escape message when neither the log directory nor the channel holds a null byte. |
| FileRelay.OnlyPathErrorLines | wslogtail/__init__.py:82-86 | Every line printed for a rejected source (line 85) is one of `get_log_path`'s two messages, and always "Please, don't try to escape." when neither the log directory nor any channel holds a null byte. |
| FileRelay.RedisToLoggingSummary | wslogtail/__init__.py:69-96 | Over anything the `<prefix>:*` subscription delivers, the service raises no `IndexError` or `ValueError`. Every writer is a `.log` file inside the log directory. Each file receives exactly its sources' payloads in bus order, appended after whatever it held before. Every line printed for a rejected source is the escape message or "embedded null byte", and always the escape message when neither the log directory nor any channel holds a null byte. |

## Left out

- Symbolic links: `resolve()` is lexical here. The model does not see the file system, so a link inside the log directory that points outside it is not modelled.
- The process's working directory is the parameter `cwd`, an already resolved path.
- pathlib's special case of a leading `//` is not modelled. A name is any string, split on `/`. A null byte is modelled only as the `ValueError("embedded null byte")` that CPython's `resolve()` raises for it (through `os.lstat` or `os.readlink`); the exact wording of that message is CPython's.
- `exists()` is modelled as membership of the resolved path in a map of files, which never raises; a directory at that path is not modelled, nor are the OS errors `exists()` re-raises (see Session.History).
- The Redis connection, `psubscribe` and `next_published` are replaced by a finite list of messages. The infinite loops are folds over that list. A session whose list runs out is reported as still waiting.
- Websocket sends and JSON encoding: the output is the list of `{name, line}` records.
- `Ansi2HTMLConverter.convert` is the uninterpreted parameter `render`.
- Strict UTF-8 decoding is the parameter `decode`. It returns `None` where Python raises `UnicodeDecodeError`.
- `RotatingFileHandler` rotation (32 MiB, one backup) is not modelled; each file is an append-only list of records.
- Concurrency between sessions and asyncio scheduling, `main` with its argument parsing, and the unreachable `connection.close()` are left out.
- Session.History: OS errors from `logpath.open(mode="rb")` are not modelled. Nothing catches them, so an unreadable log file (`PermissionError`) or a directory named `<name>.log` (`IsADirectoryError`) ends the session; the model promises only `UnicodeDecodeError`. The same goes for `logpath.exists()` at line 43: it swallows only "not found"-style errors (`ENOENT`, `ENOTDIR`, `EBADF`, `ELOOP`) and re-raises the rest, so a name like `private/x` whose directory `logs/private` lacks search permission ends the session with `PermissionError` before any history is sent.
- FileRelay.Route: an exception other than `ValueError` from the check is modelled as propagating. `get_log_path` raises no such exception (`FileRelay.LogPathCheckRaisesValueError`). The `RotatingFileHandler` opens its file at once, and the OS errors that can raise (for example `FileNotFoundError` when `<logdir>/nosuch` does not exist for the source `nosuch/x`) are not modelled.
- FileRelay.Relay: for the same reason, the loop can also end with an uncaught OS error from opening a new writer's file. Because `main` runs this loop to completion, such an error ends the whole process. The model promises only which `IndexError`s and `ValueError`s occur.
- FileRelay.RelayKeepsValid: "raises no `IndexError` or `ValueError`" is all it promises; an OS error from opening a new writer's file still ends the loop in the source.
- FileRelay.RelayWritesEachPayloadToItsFile: treats each source's logger as independent. In the source, `logging` also hands a record to the handlers of ancestor loggers. So a payload for `a.b` is also written to `a.log` once `a` has a writer. Once the root logger has a writer, every payload is also written to its file: that happens for the empty source (`.log`) and, from Python 3.9 on, for the source `root` (`root.log`), since `getLogger("root")` then returns the root logger. It also assumes every append succeeds: when a write or a rollover fails, `logging` reports the error on standard error and the payload is lost. And it does not model records that other code logs: a source named after a library logger, such as `websockets` or `asyncio`, also gets that library's own log records in its file.
- FileRelay.RedisToLoggingSummary: `FileOf` counts only the records the service appends; the handler opens its file in mode `'a'`, so a `<name>.log` that existed before the service started keeps its earlier content in front of them. It neither models an OS error from opening a new writer's file, which ends the process, nor ancestor-logger propagation. Under propagation a file can also hold payloads of descendant sources, or, for the root logger's file, of every source. It also assumes a glob-free prefix (see Topics.SubscribedHasSource), assumes every append succeeds (a failed append loses that payload and prints a `logging` error report, see FileRelay.OnlyPathErrorLines), and does not model records that libraries log to their own loggers: a source named `websockets` or `asyncio` gets that library's log records in its file.
- Topics.SubscribedHasSource: holds only for a prefix free of the glob characters `*`, `?`, `[`, `]` and `\`. Lines 38 and 75 pass `<prefix>:*` to `psubscribe`, which Redis matches as a glob. So the prefix `logs[1]` subscribes to `logs1:*` and not to `logs[1]:*`, and the prefix `wslogger[` can deliver the channel `wslogger*`, which has no `:` and makes line 78 (and line 58) raise `IndexError`.
- FileRelay.OnlyPathErrorLines: covers only the lines printed at line 85. When appending a payload fails (a full disk, or a `UnicodeEncodeError` because lines 87-90 pass no encoding to the file handler), `logging`'s handler catches the error and prints "--- Logging error ---" and a traceback to standard error.

=== FILE: Exceptions.dfy ===
/** The Python exceptions that the log-tail core raises itself. */
module Exceptions {

  datatype Exception =
    /** `s.split(sep, 1)[1]` on a string without `sep`. */
    | IndexError
    /** Raised by the path check, carrying the text printed by `print(e)`. */
    | ValueError(message: string)
    /** Strict UTF-8 decoding of the history window failed. */
    | UnicodeDecodeError
}

=== FILE: FileRelay.dfy ===
/**
 * The bus-to-file relay (`redistologging`) as a fold over the messages the
 * subscription delivers. The registry maps each source to the log file its
 * writer appends to; each file is modelled as the list of records appended
 * to it, and each reported path error as a line on standard error.
 *
 * The loop is stated for any path check `check`; the relay the service
 * runs, `RedisToLogging`, passes `get_log_path` for its log directory.
 */
module FileRelay {
  import opened Wrappers
  import opened Exceptions
  import opened Paths
  import opened Topics

  /** A path check: the log file for a source, or the exception it raises. */
  type PathCheck = string -> Result<seq<Segment>, Exception>

  /** The relay's state. */
  datatype Registry = Registry(
    writers: map<string, seq<Segment>>,
    files: map<seq<Segment>, seq<string>>,
    errors: seq<string>)

  /** The relay's state when the bus ran dry, and the exception that stopped it, if any. */
  datatype Run = Run(state: Registry, raised: Option<Exception>)

  const Empty: Registry := Registry(map[], map[], [])

  /** The records appended to `path` so far. */
  function FileOf(st: Registry, path: seq<Segment>): seq<string>
  {
    if path in st.files then st.files[path] else []
  }

  /** `logger.info(line)` with the `%(message)s` format: the line itself, appended. */
  function Append(st: Registry, path: seq<Segment>, line: string): (r: Registry)
    ensures r.writers == st.writers && r.errors == st.errors
    ensures FileOf(r, path) == FileOf(st, path) + [line]
    ensures forall q :: q != path ==> FileOf(r, q) == FileOf(st, q)
  {
    st.(files := st.files[path := FileOf(st, path) + [line]])
  }

  /** A check that, like `get_log_path`, only ever raises `ValueError`. */
  ghost predicate OnlyValueErrors(check: PathCheck)
  {
    forall s :: check(s).Failure? ==> check(s).error.ValueError?
  }

  /** Every cached writer is the file the check gives its source. */
  ghost predicate Valid(check: PathCheck, st: Registry)
  {
    forall s :: s in st.writers ==> check(s) == Success(st.writers[s])
  }

  /**
   * One loop iteration: find or create the source's writer, then append the
   * payload. A `ValueError` from the check is printed and the message
   * dropped, with nothing cached for the source; any other exception
   * propagates.
   */
  function Route(check: PathCheck, st: Registry, m: Message): (r: Result<Registry, Exception>)
    ensures ChannelSep !in m.channel ==> r == Failure(IndexError)
    ensures OnlyValueErrors(check) ==> (r.Failure? <==> ChannelSep !in m.channel)
    ensures r.Success? ==> forall s :: s in st.writers ==> s in r.value.writers && r.value.writers[s] == st.writers[s]
    ensures r.Success? ==> r.value.writers.Keys <= st.writers.Keys + {Source(m.channel).value}
  {
    match Source(m.channel)
    case None => Failure(IndexError)
    case Some(source) =>
      if source in st.writers then Success(Append(st, st.writers[source], m.payload))
      else
        match check(source)
        case Failure(ValueError(message)) => Success(st.(errors := st.errors + [message]))
        case Failure(e) => Failure(e)
        case Success(path) => Success(Append(st.(writers := st.writers[source := path]), path, m.payload))
  }

  /**
   * The relay loop over a finite stretch of the bus; it stops at the first
   * exception it models (`IndexError`, or one the check raises other than `ValueError`).
   */
  function Relay(check: PathCheck, st: Registry, bus: seq<Message>): (run: Run)
    ensures OnlyValueErrors(check) ==>
              (run.raised.Some? <==> exists i :: 0 <= i < |bus| && ChannelSep !in bus[i].channel)
    ensures |run.state.errors| <= |st.errors| + |bus|
    decreases |bus|
  {
    if |bus| == 0 then Run(st, None)
    else
      match Route(check, st, bus[0])
      case Failure(e) => Run(st, Some(e))
      case Success(next) =>
        assert forall i :: 1 <= i < |bus| ==> bus[i] == bus[1..][i - 1];
        Relay(check, next, bus[1..])
  }

  /** `get_log_path` for the log directory `logdir`. */
  function LogPathCheck(cwd: seq<Segment>, logdir: string): PathCheck
  {
    s => GetLogPath(cwd, logdir, s)
  }

  /** `redistologging`: the relay from an empty registry, checking paths against `logdir`. */
  function RedisToLogging(cwd: seq<Segment>, logdir: string, bus: seq<Message>): (run: Run)
    ensures run.raised.Some? <==> exists i :: 0 <= i < |bus| && ChannelSep !in bus[i].channel
    ensures |run.state.errors| <= |bus|
  {
    LogPathCheckRaisesValueError(cwd, logdir);
    Relay(LogPathCheck(cwd, logdir), Empty, bus)
  }

  /** The payloads the relay should append to `path`: those of messages whose source the check sends there. */
  function PayloadsFor(check: PathCheck, bus: seq<Message>, path: seq<Segment>): seq<string>
  {
    if |bus| == 0 then []
    else
      var m := bus[0];
      (if Source(m.channel).Some? && check(Source(m.channel).value) == Success(path)
       then [m.payload] else [])
      + PayloadsFor(check, bus[1..], path)
  }

  /** The sources on the bus that the check accepts. */
  function ResolvedSources(check: PathCheck, bus: seq<Message>): set<string>
  {
    if |bus| == 0 then {}
    else
      var m := bus[0];
      (if Source(m.channel).Some? && check(Source(m.channel).value).Success?
       then {Source(m.channel).value} else {})
      + ResolvedSources(check, bus[1..])
  }

  /** The text of the `ValueError` raised for `source`; empty when it is accepted. */
  function Complaint(check: PathCheck, source: string): seq<string>
  {
    match check(source)
    case Failure(ValueError(message)) => [message]
    case _ => []
  }

  /** One error line per message whose source the check rejects. */
  function ErrorLines(check: PathCheck, bus: seq<Message>): seq<string>
  {
    if |bus| == 0 then []
    else
      var m := bus[0];
      (if Source(m.channel).Some? then Complaint(check, Source(m.channel).value) else [])
      + ErrorLines(check, bus[1..])
  }

  /**
   * A message for a source the check accepts is appended, verbatim, to that
   * source's file and to no other; its writer is that file.
   */
  lemma {:induction false} RouteAppendsToOwnFile(
    check: PathCheck, st: Registry, m: Message, source: string, path: seq<Segment>)
    requires Valid(check, st)
    requires Source(m.channel) == Some(source)
    requires check(source) == Success(path)
    ensures var r := Route(check, st, m);
            && r.Success?
            && Valid(check, r.value)
            && r.value.writers == st.writers[source := path]
            && r.value.errors == st.errors
            && FileOf(r.value, path) == FileOf(st, path) + [m.payload]
            && forall q :: q != path ==> FileOf(r.value, q) == FileOf(st, q)
  {
  }

  /**
   * A message whose source the check rejects with a `ValueError` is dropped
   * with one error line; no writer is cached for it, so the next message for
   * the same source is checked again.
   */
  lemma {:induction false} RouteDropsRejected(
    check: PathCheck, st: Registry, m: Message, source: string, message: string)
    requires Valid(check, st)
    requires Source(m.channel) == Some(source)
    requires check(source) == Failure(ValueError(message))
    ensures Route(check, st, m) == Success(st.(errors := st.errors + [message]))
    ensures source !in Route(check, st, m).value.writers
  {
  }

  /** Routing one message whose channel has a source keeps the cache valid. */
  lemma {:induction false} RouteKeepsValid(check: PathCheck, st: Registry, m: Message)
    requires OnlyValueErrors(check) && Valid(check, st)
    requires ChannelSep in m.channel
    ensures Route(check, st, m).Success? && Valid(check, Route(check, st, m).value)
  {
    var source := Source(m.channel).value;
    match check(source) {
      case Success(path) => RouteAppendsToOwnFile(check, st, m, source, path);
      case Failure(e) => RouteDropsRejected(check, st, m, source, e.message);
    }
  }

  /** The relay handles the first message, then carries on with the rest. */
  lemma {:induction false} RelayUnfold(check: PathCheck, st: Registry, bus: seq<Message>)
    requires OnlyValueErrors(check)
    requires |bus| > 0 && ChannelSep in bus[0].channel
    ensures Relay(check, st, bus) == Relay(check, Route(check, st, bus[0]).value, bus[1..])
  {
  }

  lemma AppendAssoc<T>(a: seq<T>, b: seq<T>, c: seq<T>)
    ensures a + b + c == a + (b + c)
  {
  }

  /** Over a bus whose channels all have a source the relay raises no `IndexError` or `ValueError`, and its cache stays valid. */
  lemma {:induction false} RelayKeepsValid(check: PathCheck, st: Registry, bus: seq<Message>)
    requires OnlyValueErrors(check) && Valid(check, st)
    requires forall i :: 0 <= i < |bus| ==> ChannelSep in bus[i].channel
    ensures Relay(check, st, bus).raised == None
    ensures Valid(check, Relay(check, st, bus).state)
    decreases |bus|
  {
    if |bus| > 0 {
      RouteKeepsValid(check, st, bus[0]);
      RelayKeepsValid(check, Route(check, st, bus[0]).value, bus[1..]);
      RelayUnfold(check, st, bus);
    }
  }

  /** Writers exist exactly for the sources already cached and those the check accepted on the bus. */
  lemma {:induction false} RelayCreatesWritersLazily(check: PathCheck, st: Registry, bus: seq<Message>)
    requires OnlyValueErrors(check) && Valid(check, st)
    requires forall i :: 0 <= i < |bus| ==> ChannelSep in bus[i].channel
    ensures Relay(check, st, bus).state.writers.Keys == st.writers.Keys + ResolvedSources(check, bus)
    decreases |bus|
  {
    if |bus| > 0 {
      var m := bus[0];
      var source := Source(m.channel).value;
      RouteKeepsValid(check, st, m);
      match check(source) {
        case Success(path) => RouteAppendsToOwnFile(check, st, m, source, path);
        case Failure(e) => RouteDropsRejected(check, st, m, source, e.message);
      }
      var next := Route(check, st, m).value;
      var head := if check(source).Success? then {source} else {};
      assert next.writers.Keys == st.writers.Keys + head;
      assert ResolvedSources(check, bus) == head + ResolvedSources(check, bus[1..]);
      RelayCreatesWritersLazily(check, next, bus[1..]);
      RelayUnfold(check, st, bus);
    }
  }

  /** One error line is printed per rejected message, however often its source recurs. */
  lemma {:induction false} RelayReportsEachRejection(check: PathCheck, st: Registry, bus: seq<Message>)
    requires OnlyValueErrors(check) && Valid(check, st)
    requires forall i :: 0 <= i < |bus| ==> ChannelSep in bus[i].channel
    ensures Relay(check, st, bus).state.errors == st.errors + ErrorLines(check, bus)
    decreases |bus|
  {
    if |bus| == 0 {
      assert st.errors + ErrorLines(check, bus) == st.errors;
    } else {
      var m := bus[0];
      var source := Source(m.channel).value;
      RouteKeepsValid(check, st, m);
      match check(source) {
        case Success(path) => RouteAppendsToOwnFile(check, st, m, source, path);
        case Failure(e) => RouteDropsRejected(check, st, m, source, e.message);
      }
      var next := Route(check, st, m).value;
      var head := Complaint(check, source);
      assert next.errors == st.errors + head;
      assert ErrorLines(check, bus) == head + ErrorLines(check, bus[1..]);
      RelayReportsEachRejection(check, next, bus[1..]);
      RelayUnfold(check, st, bus);
      AppendAssoc(st.errors, head, ErrorLines(check, bus[1..]));
    }
  }

  /**
   * Each file receives exactly the payloads of the messages whose source the
   * check sends to it, verbatim and in bus order; no other file changes.
   */
  lemma {:induction false} RelayWritesEachPayloadToItsFile(
    check: PathCheck, st: Registry, bus: seq<Message>, path: seq<Segment>)
    requires OnlyValueErrors(check) && Valid(check, st)
    requires forall i :: 0 <= i < |bus| ==> ChannelSep in bus[i].channel
    ensures FileOf(Relay(check, st, bus).state, path) == FileOf(st, path) + PayloadsFor(check, bus, path)
    decreases |bus|
  {
    if |bus| == 0 {
      assert FileOf(st, path) + PayloadsFor(check, bus, path) == FileOf(st, path);
    } else {
      var m := bus[0];
      var source := Source(m.channel).value;
      RouteKeepsValid(check, st, m);
      match check(source) {
        case Success(p) => RouteAppendsToOwnFile(check, st, m, source, p);
        case Failure(e) => RouteDropsRejected(check, st, m, source, e.message);
      }
      var next := Route(check, st, m).value;
      var head := if check(source) == Success(path) then [m.payload] else [];
      assert FileOf(next, path) == FileOf(st, path) + head;
      assert PayloadsFor(check, bus, path) == head + PayloadsFor(check, bus[1..], path);
      RelayWritesEachPayloadToItsFile(check, next, bus[1..], path);
      RelayUnfold(check, st, bus);
      AppendAssoc(FileOf(st, path), head, PayloadsFor(check, bus[1..], path));
    }
  }

  /** `get_log_path` raises nothing but `ValueError`. */
  lemma {:induction false} LogPathCheckRaisesValueError(cwd: seq<Segment>, logdir: string)
    ensures OnlyValueErrors(LogPathCheck(cwd, logdir))
  {
    forall s | LogPathCheck(cwd, logdir)(s).Failure?
      ensures LogPathCheck(cwd, logdir)(s).error.ValueError?
    {
      assert LogPathCheck(cwd, logdir)(s) == GetLogPath(cwd, logdir, s);
    }
  }

  /**
   * The service's relay, over any bus the subscription `<prefix>:*` delivers:
   * it raises no `IndexError` or `ValueError`; every writer it creates appends to a `.log` file inside
   * the log directory; each file holds exactly the payloads of the messages
   * whose source resolves to it, in bus order, after whatever it held before;
   * and every line printed for a rejected source is the escape message or,
   * for a null byte, "embedded null byte" -- always the escape message when
   * neither the log directory nor any channel holds a null byte.
   */
  lemma {:induction false} RedisToLoggingSummary(
    cwd: seq<Segment>, logdir: string, prefix: string, bus: seq<Message>, path: seq<Segment>)
    requires forall i :: 0 <= i < |bus| ==> Subscribed(prefix, bus[i].channel)
    ensures var run := RedisToLogging(cwd, logdir, bus);
            && run.raised == None
            && LogFilesInside(Root(cwd, logdir), run.state)
            && FileOf(run.state, path) == PayloadsFor(LogPathCheck(cwd, logdir), bus, path)
            && PathErrorLines(run.state.errors, NulFree(logdir, bus))
  {
    var check := LogPathCheck(cwd, logdir);
    LogPathCheckRaisesValueError(cwd, logdir);
    forall i | 0 <= i < |bus| ensures ChannelSep in bus[i].channel {
      SubscribedHasSource(prefix, bus[i].channel);
    }
    var run := RedisToLogging(cwd, logdir, bus);
    RelayKeepsValid(check, Empty, bus);
    WritersInsideLogDir(cwd, logdir, run.state);
    RelayWritesEachPayloadToItsFile(check, Empty, bus, path);
    assert FileOf(Empty, path) + PayloadsFor(check, bus, path) == PayloadsFor(check, bus, path);
    RelayReportsEachRejection(check, Empty, bus);
    assert Empty.errors + ErrorLines(check, bus) == ErrorLines(check, bus);
    OnlyPathErrorLines(cwd, logdir, bus);
  }

  /** Every writer of `st` appends to a `.log` file inside `root`. */
  ghost predicate LogFilesInside(root: seq<Segment>, st: Registry)
  {
    forall s :: s in st.writers ==>
      root <= st.writers[s] && |st.writers[s]| > 0 && IsLogFileName(st.writers[s][|st.writers[s]| - 1])
  }

  /**
   * Every line is one of `get_log_path`'s two messages: the escape message,
   * or "embedded null byte" unless `escapeOnly`.
   */
  predicate PathErrorLines(lines: seq<string>, escapeOnly: bool)
  {
    forall k :: 0 <= k < |lines| ==> lines[k] == EscapeMessage || (!escapeOnly && lines[k] == NulMessage)
  }

  /** A registry kept valid for `get_log_path` only writes `.log` files inside the log directory. */
  lemma {:induction false} WritersInsideLogDir(cwd: seq<Segment>, logdir: string, st: Registry)
    requires Valid(LogPathCheck(cwd, logdir), st)
    ensures LogFilesInside(Root(cwd, logdir), st)
  {
    forall s | s in st.writers
      ensures Root(cwd, logdir) <= st.writers[s]
      ensures |st.writers[s]| > 0 && IsLogFileName(st.writers[s][|st.writers[s]| - 1])
    {
      assert GetLogPath(cwd, logdir, s) == Success(st.writers[s]) by {
        assert LogPathCheck(cwd, logdir)(s) == GetLogPath(cwd, logdir, s);
      }
      AcceptedEndsInLog(cwd, logdir, s);
    }
  }

  /** Neither the log directory nor any channel on the bus holds a null byte. */
  predicate NulFree(logdir: string, bus: seq<Message>)
  {
    Nul !in logdir && forall i :: 0 <= i < |bus| ==> Nul !in bus[i].channel
  }

  /**
   * Every line printed for a source `get_log_path` rejects is one of its two
   * messages, and the escape message when no null byte is involved.
   */
  lemma {:induction false} OnlyPathErrorLines(cwd: seq<Segment>, logdir: string, bus: seq<Message>)
    ensures PathErrorLines(ErrorLines(LogPathCheck(cwd, logdir), bus), NulFree(logdir, bus))
    decreases |bus|
  {
    if |bus| > 0 {
      var check := LogPathCheck(cwd, logdir);
      NulFreeRest(logdir, bus);
      OnlyPathErrorLines(cwd, logdir, bus[1..]);
      var m := bus[0];
      var head := if Source(m.channel).Some? then Complaint(check, Source(m.channel).value) else [];
      if Source(m.channel).Some? {
        ComplaintIsPathError(cwd, logdir, m.channel);
      }
      assert ErrorLines(check, bus) == head + ErrorLines(check, bus[1..]);
    }
  }

  /** A bus free of null bytes stays so past its first message. */
  lemma NulFreeRest(logdir: string, bus: seq<Message>)
    requires |bus| > 0
    ensures NulFree(logdir, bus) ==> NulFree(logdir, bus[1..]) && Nul !in bus[0].channel
  {
    if NulFree(logdir, bus) {
      forall i | 0 <= i < |bus[1..]| ensures Nul !in bus[1..][i].channel {
        assert bus[1..][i] == bus[i + 1];
      }
    }
  }

  /**
   * The line printed for a message's source, if any, is one of the two
   * messages of `get_log_path`, and the escape message when neither the log
   * directory nor the channel holds a null byte.
   */
  lemma ComplaintIsPathError(cwd: seq<Segment>, logdir: string, channel: string)
    requires Source(channel).Some?
    ensures var h := Complaint(LogPathCheck(cwd, logdir), Source(channel).value);
            h == [] || h == [EscapeMessage] || h == [NulMessage]
    ensures var h := Complaint(LogPathCheck(cwd, logdir), Source(channel).value);
            Nul !in logdir && Nul !in channel ==> h == [] || h == [EscapeMessage]
  {
    var source := Source(channel).value;
    if Nul !in channel {
      var k := |channel| - |source|;
      assert forall j :: 0 <= j < |source| ==> source[j] == channel[k + j];
    }
    assert LogPathCheck(cwd, logdir)(source) == GetLogPath(cwd, logdir, source);
  }
}

=== FILE: Lines.dfy ===
/**
 * `str.splitlines()` as the history text is split: lines end at any of
 * Python's line boundaries, `\r\n` counts as one boundary, and a final
 * boundary does not open an empty last line.
 */
module Lines {

  /** The characters `str.splitlines` treats as line boundaries. */
  predicate IsLineBreak(c: char)
  {
    || c == '\n' || c == '\r'
    || c == '\U{000B}' || c == '\U{000C}'
    || c == '\U{001C}' || c == '\U{001D}' || c == '\U{001E}'
    || c == '\U{0085}' || c == '\U{2028}' || c == '\U{2029}'
  }

  predicate NoBreaks(s: string)
  {
    forall i :: 0 <= i < |s| ==> !IsLineBreak(s[i])
  }

  /** Position of the first boundary, or `|s|` when there is none. */
  function FirstBreak(s: string): (i: nat)
    ensures i <= |s|
    ensures i < |s| ==> IsLineBreak(s[i])
    ensures NoBreaks(s[..i])
  {
    if |s| == 0 || IsLineBreak(s[0]) then 0
    else
      var j := FirstBreak(s[1..]);
      assert s[..j + 1] == [s[0]] + s[1..][..j];
      j + 1
  }

  /** Characters taken by the boundary at `i`: two for `\r\n`, one otherwise. */
  function BreakWidth(s: string, i: nat): (w: nat)
    requires i < |s|
    ensures 1 <= w && i + w <= |s|
  {
    if s[i] == '\r' && i + 1 < |s| && s[i + 1] == '\n' then 2 else 1
  }

  /** `s.splitlines()`. */
  function SplitLines(s: string): (lines: seq<string>)
    ensures forall k :: 0 <= k < |lines| ==> NoBreaks(lines[k])
    ensures |lines| == 0 <==> |s| == 0
    ensures |lines| <= |s|
    decreases |s|
  {
    if |s| == 0 then []
    else
      var i := FirstBreak(s);
      if i == |s| then [s]
      else [s[..i]] + SplitLines(s[i + BreakWidth(s, i)..])
  }

  /** The text of `s` with every boundary character deleted. */
  function RemoveBreaks(s: string): string
  {
    if |s| == 0 then ""
    else (if IsLineBreak(s[0]) then "" else [s[0]]) + RemoveBreaks(s[1..])
  }

  /** `"".join(lines)`. */
  function Concat(lines: seq<string>): string
  {
    if |lines| == 0 then "" else lines[0] + Concat(lines[1..])
  }

  /** The text of `lines`, each ended by `\n`, as a log file holds them. */
  function Terminated(lines: seq<string>): string
  {
    if |lines| == 0 then "" else lines[0] + "\n" + Terminated(lines[1..])
  }

  lemma {:induction false} RemoveBreaksAppend(a: string, b: string)
    ensures RemoveBreaks(a + b) == RemoveBreaks(a) + RemoveBreaks(b)
    decreases |a|
  {
    if |a| > 0 {
      assert (a + b)[0] == a[0];
      assert (a + b)[1..] == a[1..] + b;
      RemoveBreaksAppend(a[1..], b);
    } else {
      assert a + b == b;
    }
  }

  lemma {:induction false} RemoveBreaksOfLine(s: string)
    requires NoBreaks(s)
    ensures RemoveBreaks(s) == s
    decreases |s|
  {
    if |s| > 0 {
      RemoveBreaksOfLine(s[1..]);
      assert [s[0]] + s[1..] == s;
    }
  }

  /** A boundary, one or two characters wide, contributes no text. */
  lemma {:induction false} BoundaryHasNoText(s: string, i: nat)
    requires i < |s| && IsLineBreak(s[i])
    ensures RemoveBreaks(s[i..i + BreakWidth(s, i)]) == ""
  {
    var b := s[i..i + BreakWidth(s, i)];
    assert IsLineBreak(b[0]);
    if |b| == 2 {
      assert b[1..][0] == '\n';
      assert b[1..][1..] == "";
      assert RemoveBreaks(b[1..]) == "" + RemoveBreaks(b[1..][1..]);
    } else {
      assert b[1..] == "";
    }
  }

  /** Removing boundaries works piece by piece over any three-way cut. */
  lemma {:induction false} RemoveBreaksCut(s: string, i: nat, j: nat)
    requires i <= j <= |s|
    ensures RemoveBreaks(s) == RemoveBreaks(s[..i]) + RemoveBreaks(s[i..j]) + RemoveBreaks(s[j..])
  {
    assert s == s[..i] + (s[i..j] + s[j..]);
    RemoveBreaksAppend(s[..i], s[i..j] + s[j..]);
    RemoveBreaksAppend(s[i..j], s[j..]);
  }

  /** Removing boundaries from a text that starts with a line and a boundary keeps that line. */
  lemma {:induction false} RemoveBreaksAfterLine(s: string)
    requires FirstBreak(s) < |s|
    ensures var i := FirstBreak(s);
            RemoveBreaks(s) == s[..i] + RemoveBreaks(s[i + BreakWidth(s, i)..])
  {
    var i := FirstBreak(s);
    var next := i + BreakWidth(s, i);
    RemoveBreaksCut(s, i, next);
    RemoveBreaksOfLine(s[..i]);
    BoundaryHasNoText(s, i);
    assert s[..i] + "" == s[..i];
  }

  /**
   * Splitting loses nothing but the boundaries: the lines, concatenated,
   * are the text with its boundary characters removed.
   */
  lemma {:induction false} SplitLinesKeepsText(s: string)
    ensures Concat(SplitLines(s)) == RemoveBreaks(s)
    decreases |s|
  {
    if |s| > 0 {
      var i := FirstBreak(s);
      if i == |s| {
        assert s[..i] == s;
        RemoveBreaksOfLine(s);
      } else {
        var after := s[i + BreakWidth(s, i)..];
        assert Concat(SplitLines(s)) == s[..i] + Concat(SplitLines(after)) by {
          assert SplitLines(s) == [s[..i]] + SplitLines(after);
        }
        SplitLinesKeepsText(after);
        RemoveBreaksAfterLine(s);
      }
    }
  }

  /**
   * Lines written with a `\n` after each are split back into the same lines:
   * `splitlines` inverts line-per-record writing.
   */
  lemma {:induction false} SplitTerminated(lines: seq<string>)
    requires forall k :: 0 <= k < |lines| ==> NoBreaks(lines[k])
    ensures SplitLines(Terminated(lines)) == lines
    decreases |lines|
  {
    if |lines| > 0 {
      var l := lines[0];
      var rest := Terminated(lines[1..]);
      var s := Terminated(lines);
      assert s == l + "\n" + rest;
      assert s[..|l|] == l;
      assert s[|l|] == '\n';
      assert FirstBreak(s) == |l| by {
        var i := FirstBreak(s);
        assert forall j :: 0 <= j < |l| ==> s[j] == l[j];
        assert i <= |l| by {
          assert !NoBreaks(s[..|l| + 1]) by { assert s[..|l| + 1][|l|] == '\n'; }
        }
      }
      assert BreakWidth(s, |l|) == 1;
      assert s[|l| + 1..] == rest;
      SplitTerminated(lines[1..]);
    }
  }

  /** `\r\n` is one boundary, and the final boundary opens no empty line. */
  lemma {:induction false} CrLfExample(s: string)
    requires s == "a\r\nb\n"
    ensures SplitLines(s) == ["a", "b"]
  {
    assert FirstBreak(s[1..]) == 0;
    assert FirstBreak(s) == 1;
    assert s[..1] == "a";
    assert BreakWidth(s, 1) == 2;
    var t := s[3..];
    assert t == "b\n";
    assert FirstBreak(t[1..]) == 0;
    assert FirstBreak(t) == 1;
    assert BreakWidth(t, 1) == 1;
    assert t[..1] == "b";
    assert t[2..] == "";
    assert SplitLines(t) == [t[..1]] + SplitLines(t[2..]);
    assert SplitLines(s) == [s[..1]] + SplitLines(t);
  }
}

=== FILE: Paths.dfy ===
/**
 * Confinement of log names to the log directory (`get_log_path`).
 *
 * A resolved path is the sequence of its segments below the file-system
 * root. Resolution is lexical: the working directory `cwd` stands in for
 * the process's current directory, and symbolic links are not followed.
 */
module Paths {
  import opened Wrappers
  import opened Exceptions
  import Text

  type Segment = string

  const Sep: char := '/'
  const LogSuffix: string := ".log"
  const EscapeMessage: string := "Please, don't try to escape."
  /** `resolve()` refuses a path with a null byte; `os.lstat` and `os.readlink` raise `ValueError` with this text. */
  const Nul: char := '\0'
  const NulMessage: string := "embedded null byte"

  /** A segment that names a directory entry (not empty, `.` or `..`). */
  predicate IsName(s: Segment)
  {
    s != "" && s != "." && s != ".."
  }

  /** A path with every `.` and `..` resolved away. */
  predicate Normal(p: seq<Segment>)
  {
    forall i :: 0 <= i < |p| ==> IsName(p[i])
  }

  /** A path as `pathlib.PurePosixPath` holds it, before resolution. */
  datatype PurePath = PurePath(absolute: bool, segs: seq<Segment>)

  /** Whether pathlib keeps a piece of a split path string: empty and `.` pieces vanish. */
  predicate Kept(part: string)
  {
    part != "" && part != "."
  }

  /** The pieces pathlib keeps, in order. */
  function Components(parts: seq<string>): (segs: seq<Segment>)
    ensures forall i :: 0 <= i < |segs| ==> Kept(segs[i])
    ensures |segs| <= |parts|
  {
    if |parts| == 0 then []
    else
      var last := parts[|parts| - 1];
      Components(parts[..|parts| - 1]) + (if Kept(last) then [last] else [])
  }

  /** `pathlib.Path(s)`. */
  function Parse(s: string): (p: PurePath)
    ensures p.absolute <==> |s| > 0 && s[0] == Sep
    ensures forall i :: 0 <= i < |p.segs| ==> Kept(p.segs[i])
  {
    PurePath(|s| > 0 && s[0] == Sep, Components(Text.SplitOn(s, Sep)))
  }

  /** `base / rel`: an absolute right-hand side replaces the left. */
  function Join(base: PurePath, rel: PurePath): (r: PurePath)
    ensures r.absolute <==> base.absolute || rel.absolute
    ensures rel.absolute ==> r == rel
    ensures !rel.absolute ==> base.segs <= r.segs
    ensures |rel.segs| <= |r.segs| && r.segs[|r.segs| - |rel.segs|..] == rel.segs
  {
    if rel.absolute then rel else PurePath(base.absolute, base.segs + rel.segs)
  }

  /** The directory above `p`; the root is its own parent. */
  function Parent(p: seq<Segment>): seq<Segment>
  {
    if |p| == 0 then p else p[..|p| - 1]
  }

  /** Lexical resolution of `segs` starting in the directory `acc`. */
  function Normalize(acc: seq<Segment>, segs: seq<Segment>): (r: seq<Segment>)
    requires Normal(acc)
    ensures Normal(r)
    decreases |segs|
  {
    if |segs| == 0 then acc
    else if segs[0] == ".." then Normalize(Parent(acc), segs[1..])
    else if !IsName(segs[0]) then Normalize(acc, segs[1..])
    else Normalize(acc + [segs[0]], segs[1..])
  }

  /** `p.resolve()`: absolute against `cwd`, then normalised. */
  function Resolve(cwd: seq<Segment>, p: PurePath): (r: seq<Segment>)
    ensures Normal(r)
  {
    Normalize([], (if p.absolute then [] else cwd) + p.segs)
  }

  /** The longest segment-wise common prefix of two paths. */
  function CommonPrefix(a: seq<Segment>, b: seq<Segment>): (r: seq<Segment>)
    ensures r <= a && r <= b
    ensures |r| == |a| || |r| == |b| || a[|r|] != b[|r|]
  {
    if |a| == 0 || |b| == 0 || a[0] != b[0] then []
    else [a[0]] + CommonPrefix(a[1..], b[1..])
  }

  /** `q` is a segment-wise prefix of every path in `paths`. */
  predicate CommonTo(q: seq<Segment>, paths: seq<seq<Segment>>)
  {
    forall i :: 0 <= i < |paths| ==> q <= paths[i]
  }

  /** `os.path.commonpath(paths)` for resolved paths: the longest common prefix. */
  function CommonPath(paths: seq<seq<Segment>>): (r: seq<Segment>)
    requires |paths| > 0
    ensures CommonTo(r, paths)
    ensures forall q :: CommonTo(q, paths) ==> q <= r
  {
    if |paths| == 1 then paths[0]
    else
      var init := CommonPath(paths[..|paths| - 1]);
      var last := paths[|paths| - 1];
      var r := CommonPrefix(init, last);
      assert forall i :: 0 <= i < |paths| - 1 ==> r <= paths[i] by {
        forall i | 0 <= i < |paths| - 1 ensures r <= paths[i] {
          assert init <= paths[..|paths| - 1][i];
          PrefixTransitive(r, init, paths[i]);
        }
      }
      assert forall q :: CommonTo(q, paths) ==> q <= r by {
        forall q | CommonTo(q, paths)
          ensures q <= r
        {
          var front := paths[..|paths| - 1];
          assert CommonTo(q, front) by {
            forall i | 0 <= i < |front| ensures q <= front[i] {
              assert front[i] == paths[i];
            }
          }
          assert q <= last;
          CommonPrefixLongest(init, last, q);
        }
      }
      r
  }

  /** Any common prefix of two paths is a prefix of their longest common prefix. */
  lemma {:induction false} CommonPrefixLongest(a: seq<Segment>, b: seq<Segment>, q: seq<Segment>)
    requires q <= a && q <= b
    ensures q <= CommonPrefix(a, b)
  {
    var r := CommonPrefix(a, b);
    if |q| > |r| {
      assert false;
    }
    assert forall j :: 0 <= j < |q| ==> q[j] == a[j] == r[j];
  }

  lemma {:induction false} PrefixTransitive<T>(a: seq<T>, b: seq<T>, c: seq<T>)
    requires a <= b && b <= c
    ensures a <= c
  {
    assert c[..|a|] == b[..|a|];
  }

  /** `commonpath([a]) == commonpath([a, b])` holds exactly when `a` is a segment-wise prefix of `b`. */
  lemma {:induction false} CommonPathPrefix(a: seq<Segment>, b: seq<Segment>)
    ensures CommonPath([a]) == CommonPath([a, b]) <==> a <= b
  {
    assert [a, b][..1] == [a];
    var r := CommonPrefix(a, b);
    assert CommonPath([a, b]) == r;
    if a <= b {
      assert forall j :: 0 <= j < |a| ==> a[j] == b[j];
    }
  }

  /** The resolved log directory. */
  function Root(cwd: seq<Segment>, logdir: string): seq<Segment>
  {
    Resolve(cwd, Parse(logdir))
  }

  /** The resolved file `<logdir>/<logname>.log`, before the confinement check. */
  function Candidate(cwd: seq<Segment>, logdir: string, logname: string): seq<Segment>
  {
    Resolve(cwd, Join(Parse(logdir), Parse(logname + LogSuffix)))
  }

  /**
   * `get_log_path`: the resolved `<logdir>/<logname>.log`, accepted only when
   * the resolved log directory is a segment-wise prefix of it. A null byte
   * in either string makes `resolve()` raise before the comparison.
   */
  function GetLogPath(cwd: seq<Segment>, logdir: string, logname: string)
    : (r: Result<seq<Segment>, Exception>)
    ensures r.Success? <==>
              Nul !in logdir && Nul !in logname && Root(cwd, logdir) <= Candidate(cwd, logdir, logname)
    ensures r.Success? ==> r.value == Candidate(cwd, logdir, logname) && Normal(r.value)
    ensures r.Failure? ==>
              r.error == ValueError(if Nul in logdir || Nul in logname then NulMessage else EscapeMessage)
  {
    if Nul in logdir || Nul in logname then Failure(ValueError(NulMessage))
    else
      var rootpath := Parse(logdir);
      var logpath := Resolve(cwd, Join(rootpath, Parse(logname + LogSuffix)));
      var root := Resolve(cwd, rootpath);
      var logpath' := Resolve(cwd, PurePath(true, logpath));
      ResolveResolved(cwd, logpath);
      CommonPathPrefix(root, logpath);
      if CommonPath([root]) != CommonPath([root, logpath'])
      then Failure(ValueError(EscapeMessage))
      else Success(logpath)
  }

  /** Resolving names only appends them. */
  lemma {:induction false} NormalizeNames(acc: seq<Segment>, segs: seq<Segment>)
    requires Normal(acc) && Normal(segs)
    ensures Normalize(acc, segs) == acc + segs
    decreases |segs|
  {
    if |segs| > 0 {
      NormalizeNames(acc + [segs[0]], segs[1..]);
      assert acc + [segs[0]] + segs[1..] == acc + segs;
    }
  }

  /** Resolving an already resolved path changes nothing. */
  lemma {:induction false} ResolveResolved(cwd: seq<Segment>, p: seq<Segment>)
    requires Normal(p)
    ensures Resolve(cwd, PurePath(true, p)) == p
  {
    assert [] + p == p;
    NormalizeNames([], p);
  }

  /** Resolution proceeds left to right, one piece after the other. */
  lemma {:induction false} NormalizeConcat(acc: seq<Segment>, a: seq<Segment>, b: seq<Segment>)
    requires Normal(acc)
    ensures Normalize(acc, a + b) == Normalize(Normalize(acc, a), b)
    decreases |a|
  {
    if |a| == 0 {
      assert a + b == b;
    } else {
      assert (a + b)[0] == a[0];
      assert (a + b)[1..] == a[1..] + b;
      var next := if a[0] == ".." then Parent(acc)
                  else if !IsName(a[0]) then acc
                  else acc + [a[0]];
      NormalizeConcat(next, a[1..], b);
    }
  }

  /** `k` times `..`. */
  function Dots(k: nat): seq<Segment>
  {
    if k == 0 then [] else [".."] + Dots(k - 1)
  }

  /** Each `..` climbs one directory, and none climbs above the file-system root. */
  lemma {:induction false} ClimbDots(acc: seq<Segment>, k: nat)
    requires Normal(acc)
    ensures Normalize(acc, Dots(k)) == if k <= |acc| then acc[..|acc| - k] else []
  {
    if k == 0 {
      assert acc[..|acc|] == acc;
    } else {
      assert Dots(k)[0] == "..";
      assert Dots(k)[1..] == Dots(k - 1);
      ClimbDots(Parent(acc), k - 1);
      if k <= |acc| {
        assert Parent(acc)[..|Parent(acc)| - (k - 1)] == acc[..|acc| - k];
      }
    }
  }

  /**
   * Climbing `k` directories out of the root and descending into a sibling
   * (a first name other than the root's own component at that depth) leaves
   * the root: this is the `/logs-evil` case, rejected segment-wise.
   */
  lemma {:induction false} ClimbOutOfRoot(root: seq<Segment>, k: nat, rest: seq<Segment>)
    requires Normal(root) && Normal(rest)
    requires 1 <= k <= |root|
    requires |rest| > 0 && rest[0] != root[|root| - k]
    ensures Normalize(root, Dots(k) + rest) == root[..|root| - k] + rest
    ensures !(root <= Normalize(root, Dots(k) + rest))
  {
    var up := root[..|root| - k];
    calc {
      Normalize(root, Dots(k) + rest);
      { NormalizeConcat(root, Dots(k), rest); }
      Normalize(Normalize(root, Dots(k)), rest);
      { ClimbDots(root, k); }
      Normalize(up, rest);
      { NormalizeNames(up, rest); }
      up + rest;
    }
    NotPrefixAt(root, up + rest, |root| - k);
  }

  /** Two sequences that differ at a position both reach are not prefix-ordered. */
  lemma {:induction false} NotPrefixAt<T>(a: seq<T>, b: seq<T>, i: nat)
    requires i < |a| && i < |b| && a[i] != b[i]
    ensures !(a <= b)
  {
  }

  /** A relative name without `..` or null bytes is always accepted, directly below the root. */
  lemma {:induction false} AcceptsPlainName(cwd: seq<Segment>, logdir: string, logname: string)
    requires Nul !in logdir && Nul !in logname
    requires !(|logname| > 0 && logname[0] == Sep)
    requires ".." !in Parse(logname + LogSuffix).segs
    ensures GetLogPath(cwd, logdir, logname)
            == Success(Root(cwd, logdir) + Parse(logname + LogSuffix).segs)
  {
    var base := Parse(logdir);
    var rel := Parse(logname + LogSuffix);
    assert !rel.absolute by {
      if |logname| == 0 { assert (logname + LogSuffix)[0] == '.'; }
      else { assert (logname + LogSuffix)[0] == logname[0]; }
    }
    var pre := if base.absolute then [] else cwd;
    assert (pre + (base.segs + rel.segs)) == (pre + base.segs) + rel.segs;
    NormalizeConcat([], pre + base.segs, rel.segs);
    assert Normal(rel.segs) by {
      forall i | 0 <= i < |rel.segs| ensures IsName(rel.segs[i]) {
        assert rel.segs[i] in rel.segs;
      }
    }
    NormalizeNames(Root(cwd, logdir), rel.segs);
  }

  /** An absolute name discards the log directory altogether. */
  lemma {:induction false} AbsoluteNameIgnoresRoot(cwd: seq<Segment>, logdir: string, logname: string)
    requires |logname| > 0 && logname[0] == Sep
    ensures Candidate(cwd, logdir, logname) == Resolve(cwd, Parse(logname + LogSuffix))
    ensures GetLogPath(cwd, logdir, logname).Success?
            <==> Nul !in logdir && Nul !in logname && Root(cwd, logdir) <= Resolve(cwd, Parse(logname + LogSuffix))
  {
    assert (logname + LogSuffix)[0] == Sep;
  }

  /** A file name: a name without separators that carries the `.log` suffix. */
  predicate IsLogFileName(x: Segment)
  {
    IsName(x) && Sep !in x && |LogSuffix| <= |x| && x[|x| - |LogSuffix|..] == LogSuffix
  }

  /** Whatever the name, the last segment of `<logname>.log` is a `.log` file name. */
  lemma {:induction false} LastSegmentIsLogFile(logname: string)
    ensures var segs := Parse(logname + LogSuffix).segs;
            |segs| > 0 && IsLogFileName(segs[|segs| - 1])
  {
    var s := logname + LogSuffix;
    var parts := Text.SplitOn(s, Sep);
    Text.LastPieceKeepsSuffix(logname, LogSuffix, Sep);
    var x := parts[|parts| - 1];
    assert |x| >= 4;
    assert IsName(x) && Kept(x);
    assert Parse(s).segs == Components(parts[..|parts| - 1]) + [x];
  }

  /** Resolution keeps a trailing name. */
  lemma {:induction false} NormalizeKeepsLast(segs: seq<Segment>)
    requires |segs| > 0 && IsName(segs[|segs| - 1])
    ensures var r := Normalize([], segs);
            |r| > 0 && r[|r| - 1] == segs[|segs| - 1]
  {
    var init := segs[..|segs| - 1];
    var x := segs[|segs| - 1];
    assert segs == init + [x];
    NormalizeConcat([], init, [x]);
    NormalizeNames(Normalize([], init), [x]);
  }

  /** Every accepted path names a `.log` file inside the log directory. */
  lemma {:induction false} AcceptedEndsInLog(cwd: seq<Segment>, logdir: string, logname: string)
    requires GetLogPath(cwd, logdir, logname).Success?
    ensures var p := GetLogPath(cwd, logdir, logname).value;
            Root(cwd, logdir) <= p && |p| > 0 && IsLogFileName(p[|p| - 1])
  {
    CandidateEndsInLog(cwd, logdir, logname);
  }

  /** The resolved `<logdir>/<logname>.log` ends in a `.log` file name, accepted or not. */
  lemma {:induction false} CandidateEndsInLog(cwd: seq<Segment>, logdir: string, logname: string)
    ensures var p := Candidate(cwd, logdir, logname);
            |p| > 0 && IsLogFileName(p[|p| - 1])
  {
    var rel := Parse(logname + LogSuffix);
    LastSegmentIsLogFile(logname);
    var x := rel.segs[|rel.segs| - 1];
    var joined := Join(Parse(logdir), rel);
    var full := (if joined.absolute then [] else cwd) + joined.segs;
    assert full[|full| - 1] == x;
    LastNameSurvives(full, x);
  }

  /** Resolving a path that ends in the name `x` from the root gives a path ending in `x`. */
  lemma LastNameSurvives(full: seq<Segment>, x: Segment)
    requires |full| > 0 && full[|full| - 1] == x && IsName(x)
    ensures var r := Normalize([], full);
            |r| > 0 && r[|r| - 1] == x
  {
    NormalizeKeepsLast(full);
  }


  /** A list of pieces pathlib keeps in full. */
  lemma {:induction false} ComponentsAllKept(parts: seq<string>)
    requires forall i :: 0 <= i < |parts| ==> Kept(parts[i])
    ensures Components(parts) == parts
  {
    if |parts| > 0 {
      ComponentsAllKept(parts[..|parts| - 1]);
      assert parts[..|parts| - 1] + [parts[|parts| - 1]] == parts;
    }
  }

  /** `/d`, for a single name `d`, reads as the absolute path with the one segment `d`. */
  lemma {:induction false} ParseRooted(d: Segment)
    requires IsName(d) && Sep !in d
    ensures Parse([Sep] + d) == PurePath(true, [d])
  {
    assert [Sep] + d == "" + [Sep] + d;
    Text.SplitOnCons("", Sep, d);
    assert Text.SplitOn(d, Sep) == [d];
    var parts := ["", d];
    assert parts[..1] == [""];
    assert Components([""]) == [] by {
      assert [""][..0] == [];
    }
    assert Components(parts) == [d];
  }

  /** A log directory `/d` resolves to the single segment `d`, wherever the process runs. */
  lemma {:induction false} RootedRoot(cwd: seq<Segment>, d: Segment)
    requires IsName(d) && Sep !in d
    ensures Root(cwd, [Sep] + d) == [d]
  {
    ParseRooted(d);
    assert [] + [d] == [d];
    NormalizeNames([], [d]);
  }

  /** A relative path spelled by joining names reads back as those names. */
  lemma {:induction false} ParseJoined(parts: seq<string>)
    requires |parts| > 0 && |parts[0]| > 0 && parts[0][0] != Sep
    requires forall i :: 0 <= i < |parts| ==> Kept(parts[i]) && Sep !in parts[i]
    ensures Parse(Text.JoinWith(parts, Sep)) == PurePath(false, parts)
  {
    var s := Text.JoinWith(parts, Sep);
    Text.SplitJoin(parts, Sep);
    ComponentsAllKept(parts);
    if |parts| > 1 {
      assert s == parts[0] + [Sep] + Text.JoinWith(parts[1..], Sep);
      assert s[0] == parts[0][0];
    }
  }

  /** A piece pathlib drops at the front changes nothing. */
  lemma {:induction false} ComponentsDropsFront(x: string, parts: seq<string>)
    requires !Kept(x)
    ensures Components([x] + parts) == Components(parts)
    decreases |parts|
  {
    if |parts| == 0 {
      assert [x][..0] == [];
    } else {
      var init := parts[..|parts| - 1];
      ComponentsDropsFront(x, init);
      assert ([x] + parts)[..|parts|] == [x] + init;
    }
  }

  /** An absolute path spelled by joining names after `/` reads back as those names. */
  lemma {:induction false} ParseAbsoluteJoined(parts: seq<string>)
    requires forall i :: 0 <= i < |parts| ==> Kept(parts[i]) && Sep !in parts[i]
    ensures Parse([Sep] + Text.JoinWith(parts, Sep)) == PurePath(true, parts)
  {
    var tail := Text.JoinWith(parts, Sep);
    assert [Sep] + tail == "" + [Sep] + tail;
    Text.SplitOnCons("", Sep, tail);
    ComponentsAllKept(parts);
    if |parts| > 0 {
      Text.SplitJoin(parts, Sep);
      ComponentsDropsFront("", parts);
    } else {
      assert Text.SplitOn(tail, Sep) == [""];
      ComponentsDropsFront("", [""]);
      ComponentsDropsFront("", []);
      assert [""] + [] == [""];
    }
  }

  /** `../../etc/passwd.log` spelled as its pieces. */
  lemma {:induction false} PasswdSpelling(logname: string)
    requires logname == "../../etc/passwd"
    ensures logname + LogSuffix == Text.JoinWith(["..", "..", "etc", "passwd.log"], Sep)
  {
  }

  /** `../logs-evil/x.log` spelled as its pieces. */
  lemma {:induction false} SiblingSpelling(logname: string)
    requires logname == "../logs-evil/x"
    ensures logname + LogSuffix == Text.JoinWith(["..", "logs-evil", "x.log"], Sep)
  {
  }

  /** `/logs` spelled as a separator and a name. */
  lemma {:induction false} LogsSpelling(logdir: string)
    requires logdir == "/logs"
    ensures logdir == [Sep] + "logs"
  {
  }

  /** pathlib's reading of `../../etc/passwd.log`. */
  lemma {:induction false} ParseEtcPasswd(logname: string)
    requires logname == "../../etc/passwd"
    ensures Parse(logname + LogSuffix) == PurePath(false, Dots(2) + ["etc", "passwd.log"])
  {
    PasswdSpelling(logname);
    ParseJoined(["..", "..", "etc", "passwd.log"]);
    assert Dots(2) == ["..", ".."] by {
      assert Dots(1) == [".."];
    }
  }

  /** pathlib's reading of `../logs-evil/x.log`. */
  lemma {:induction false} ParseSibling(logname: string)
    requires logname == "../logs-evil/x"
    ensures Parse(logname + LogSuffix) == PurePath(false, Dots(1) + ["logs-evil", "x.log"])
  {
    SiblingSpelling(logname);
    ParseJoined(["..", "logs-evil", "x.log"]);
    assert Dots(1) == [".."];
  }

  /** Below a log directory `/d`, the candidate for a relative name resolves its segments after `d`. */
  lemma {:induction false} CandidateUnderRooted(cwd: seq<Segment>, d: Segment, logname: string, segs: seq<Segment>)
    requires IsName(d) && Sep !in d
    requires Parse(logname + LogSuffix) == PurePath(false, segs)
    ensures Candidate(cwd, [Sep] + d, logname) == Normalize([d], segs)
  {
    ParseRooted(d);
    assert Join(Parse([Sep] + d), Parse(logname + LogSuffix)) == PurePath(true, [d] + segs);
    assert [] + ([d] + segs) == [d] + segs;
    NormalizeConcat([], [d], segs);
    assert [] + [d] == [d];
    NormalizeNames([], [d]);
  }

  /**
   * Below a log directory `/d`, climbing out with `..` and descending into
   * anything but `d` itself is refused: `..` cannot leave the file-system
   * root, so the result is just the names that follow.
   */
  lemma {:induction false} ClimbOutRejected(
    cwd: seq<Segment>, d: Segment, logname: string, k: nat, rest: seq<Segment>)
    requires IsName(d) && Sep !in d && Normal(rest)
    requires 1 <= k
    requires Parse(logname + LogSuffix) == PurePath(false, Dots(k) + rest)
    requires |rest| == 0 || rest[0] != d
    ensures Candidate(cwd, [Sep] + d, logname) == rest
    ensures GetLogPath(cwd, [Sep] + d, logname).Failure?
  {
    CandidateUnderRooted(cwd, d, logname, Dots(k) + rest);
    NormalizeConcat([d], Dots(k), rest);
    ClimbDots([d], k);
    assert [] + rest == rest;
    NormalizeNames([], rest);
    RootedRoot(cwd, d);
    if |rest| > 0 {
      NotPrefixAt([d], rest, 0);
    }
  }

  /** Below a log directory `/d`, an absolute name that does not start with `d` is refused. */
  lemma {:induction false} AbsoluteOutsideRejected(
    cwd: seq<Segment>, d: Segment, logname: string, segs: seq<Segment>)
    requires IsName(d) && Sep !in d && Normal(segs)
    requires Parse(logname + LogSuffix) == PurePath(true, segs)
    requires |segs| == 0 || segs[0] != d
    ensures Candidate(cwd, [Sep] + d, logname) == segs
    ensures GetLogPath(cwd, [Sep] + d, logname).Failure?
  {
    assert [] + segs == segs;
    NormalizeNames([], segs);
    RootedRoot(cwd, d);
    if |segs| > 0 {
      NotPrefixAt([d], segs, 0);
    }
  }

  /** The scenario `/logs` with `../../etc/passwd`: climbing out is refused. */
  lemma {:induction false} EtcPasswdRejected(cwd: seq<Segment>, logdir: string, logname: string)
    requires logdir == "/logs" && logname == "../../etc/passwd"
    ensures GetLogPath(cwd, logdir, logname).Failure?
  {
    ParseEtcPasswd(logname);
    LogsSpelling(logdir);
    ClimbOutRejected(cwd, "logs", logname, 2, ["etc", "passwd.log"]);
  }

  /**
   * The scenario `/logs` with `../logs-evil/x`: the string `/logs` is a
   * prefix of `/logs-evil/x.log`, but the segment `logs` is not `logs-evil`.
   */
  lemma {:induction false} SiblingRejected(cwd: seq<Segment>, logdir: string, logname: string)
    requires logdir == "/logs" && logname == "../logs-evil/x"
    ensures logdir <= "/logs-evil/x.log"
    ensures GetLogPath(cwd, logdir, logname).Failure?
  {
    ParseSibling(logname);
    LogsSpelling(logdir);
    ClimbOutRejected(cwd, "logs", logname, 1, ["logs-evil", "x.log"]);
  }

  /** The name `a<NUL>b` is refused by `resolve()` itself, before any comparison. */
  lemma {:induction false} NulNameRejected(cwd: seq<Segment>, logdir: string, logname: string)
    requires logdir == "/logs" && logname == "a\0b"
    ensures GetLogPath(cwd, logdir, logname) == Failure(ValueError(NulMessage))
  {
    assert logname[1] == Nul;
  }
}

=== FILE: Session.dfy ===
/**
 * One viewer session (`wstail`) with the network abstracted away: the bus
 * is the finite list of messages the subscription delivers while the
 * session lives, and the output is the list of `{name, line}` records sent.
 * `decode` stands for strict UTF-8 decoding and `render` for the ANSI to
 * HTML conversion.
 */
module Session {
  import opened Wrappers
  import opened Exceptions
  import opened Paths
  import opened Tail
  import opened Lines
  import opened Topics

  /** What the viewer receives per line: `{"name": ..., "line": ...}`. */
  datatype Record = Record(name: string, line: string)

  /**
   * The records a session sent, and the exception that ended it; with no
   * exception the session is still waiting for the next message.
   */
  datatype Transcript = Transcript(sent: seq<Record>, raised: Option<Exception>)

  /** The log files on disk, by resolved path. */
  type FileSystem = map<seq<Segment>, seq<byte>>

  /** One record per line, in order, all carrying `name`. */
  function Rendered(name: string, render: string -> string, lines: seq<string>): seq<Record>
  {
    seq(|lines|, i requires 0 <= i < |lines| => Record(name, render(lines[i])))
  }

  /**
   * The history lines a session starts with: none when the name escapes the
   * log directory or the file does not exist, otherwise the lines of the
   * decoded tail window.
   */
  function History(
    cwd: seq<Segment>, logdir: string, logname: string,
    fs: FileSystem, decode: seq<byte> -> Option<string>)
    : (r: Result<seq<string>, Exception>)
    ensures r.Failure? ==> r.error == UnicodeDecodeError
  {
    match GetLogPath(cwd, logdir, logname)
    case Failure(_) => Success([])
    case Success(path) =>
      if path !in fs then Success([])
      else
        match decode(ReadBack(fs[path]))
        case None => Failure(UnicodeDecodeError)
        case Some(text) => Success(SplitLines(text))
  }

  /**
   * The live phase: each message whose source is `logname` is rendered and
   * sent; a channel without `:` raises `IndexError` and ends the session.
   */
  function Live(logname: string, render: string -> string, bus: seq<Message>): (t: Transcript)
    ensures forall i :: 0 <= i < |t.sent| ==> t.sent[i].name == logname
    ensures |t.sent| <= |bus|
    ensures t.raised.Some? <==> exists i :: 0 <= i < |bus| && ChannelSep !in bus[i].channel
    ensures t.raised.Some? ==> t.raised.value == IndexError
  {
    if |bus| == 0 then Transcript([], None)
    else
      match Source(bus[0].channel)
      case None => Transcript([], Some(IndexError))
      case Some(source) =>
        var rest := Live(logname, render, bus[1..]);
        assert forall i :: 1 <= i < |bus| ==> bus[i] == bus[1..][i - 1];
        if source == logname
        then Transcript([Record(logname, render(bus[0].payload))] + rest.sent, rest.raised)
        else rest
  }

  /** `wstail`: the history records, then the live records. */
  function WsTail(
    cwd: seq<Segment>, logdir: string, path: string, fs: FileSystem,
    decode: seq<byte> -> Option<string>, render: string -> string, bus: seq<Message>)
    : (t: Transcript)
    ensures LogName(path).None? ==> t == Transcript([], Some(IndexError))
    ensures LogName(path).Some? ==>
              forall i :: 0 <= i < |t.sent| ==> t.sent[i].name == LogName(path).value
  {
    match LogName(path)
    case None => Transcript([], Some(IndexError))
    case Some(logname) =>
      match History(cwd, logdir, logname, fs, decode)
      case Failure(e) => Transcript([], Some(e))
      case Success(lines) =>
        var live := Live(logname, render, bus);
        Transcript(Rendered(logname, render, lines) + live.sent, live.raised)
  }

  /** The payloads of the messages for `logname`, in bus order. */
  function Matching(logname: string, bus: seq<Message>): seq<string>
  {
    if |bus| == 0 then []
    else (if Source(bus[0].channel) == Some(logname) then [bus[0].payload] else [])
         + Matching(logname, bus[1..])
  }

  /** Rendering distributes over concatenation. */
  lemma {:induction false} RenderedAppend(name: string, render: string -> string, a: seq<string>, b: seq<string>)
    ensures Rendered(name, render, a + b) == Rendered(name, render, a) + Rendered(name, render, b)
  {
  }

  /**
   * On a bus where every channel has a source, the live phase sends exactly
   * the rendered payloads of the messages for `logname`, in bus order, and
   * keeps waiting.
   */
  lemma {:induction false} LiveSendsMatching(logname: string, render: string -> string, bus: seq<Message>)
    requires forall i :: 0 <= i < |bus| ==> ChannelSep in bus[i].channel
    ensures Live(logname, render, bus) == Transcript(Rendered(logname, render, Matching(logname, bus)), None)
  {
    if |bus| > 0 {
      var rest := bus[1..];
      LiveSendsMatching(logname, render, rest);
      var head: seq<string> := if Source(bus[0].channel) == Some(logname) then [bus[0].payload] else [];
      RenderedAppend(logname, render, head, Matching(logname, rest));
    }
  }

  /** The live phase over two stretches of the bus is the first stretch's output, then the second's. */
  lemma {:induction false} LiveAppend(logname: string, render: string -> string, a: seq<Message>, b: seq<Message>)
    ensures Live(logname, render, a + b)
            == if Live(logname, render, a).raised.Some? then Live(logname, render, a)
               else Transcript(Live(logname, render, a).sent + Live(logname, render, b).sent,
                               Live(logname, render, b).raised)
    decreases |a|
  {
    if |a| == 0 {
      assert a + b == b;
    } else {
      var ab := a + b;
      assert ab[0] == a[0];
      assert ab[1..] == a[1..] + b;
      LiveAppend(logname, render, a[1..], b);
      match Source(a[0].channel) {
        case None =>
        case Some(source) =>
          var tail := Live(logname, render, a[1..]);
          if tail.raised.None? && source == logname {
            var r := Record(logname, render(a[0].payload));
            assert [r] + (tail.sent + Live(logname, render, b).sent)
                   == [r] + tail.sent + Live(logname, render, b).sent;
          }
      }
    }
  }

  /** A message for another source changes nothing a session sends, wherever it arrives. */
  lemma {:induction false} LiveIgnoresOtherSources(
    logname: string, render: string -> string, a: seq<Message>, m: Message, b: seq<Message>)
    requires Source(m.channel).Some? && Source(m.channel).value != logname
    ensures Live(logname, render, a + [m] + b) == Live(logname, render, a + b)
  {
    LiveAppend(logname, render, a, [m] + b);
    LiveAppend(logname, render, a, b);
    assert a + [m] + b == a + ([m] + b);
    assert ([m] + b)[1..] == b;
  }

  /**
   * A session that starts cleanly sends the rendered history lines first and
   * the rendered payloads for its own source after them, every record named
   * after the requested log.
   */
  lemma {:induction false} HistoryThenLive(
    cwd: seq<Segment>, logdir: string, path: string, fs: FileSystem,
    decode: seq<byte> -> Option<string>, render: string -> string, bus: seq<Message>,
    logname: string, lines: seq<string>)
    requires LogName(path) == Some(logname)
    requires History(cwd, logdir, logname, fs, decode) == Success(lines)
    requires forall i :: 0 <= i < |bus| ==> ChannelSep in bus[i].channel
    ensures WsTail(cwd, logdir, path, fs, decode, render, bus)
            == Transcript(Rendered(logname, render, lines + Matching(logname, bus)), None)
  {
    LiveSendsMatching(logname, render, bus);
    RenderedAppend(logname, render, lines, Matching(logname, bus));
  }

  /** A name that escapes the log directory gets no history: the session goes straight to live messages. */
  lemma {:induction false} EscapedNameHasNoHistory(
    cwd: seq<Segment>, logdir: string, path: string, fs: FileSystem,
    decode: seq<byte> -> Option<string>, render: string -> string, bus: seq<Message>)
    requires LogName(path).Some?
    requires GetLogPath(cwd, logdir, LogName(path).value).Failure?
    ensures WsTail(cwd, logdir, path, fs, decode, render, bus) == Live(LogName(path).value, render, bus)
  {
    assert Rendered(LogName(path).value, render, []) == [];
  }

  /** A log file that does not exist gives no history either. */
  lemma {:induction false} MissingFileHasNoHistory(
    cwd: seq<Segment>, logdir: string, path: string, fs: FileSystem,
    decode: seq<byte> -> Option<string>, render: string -> string, bus: seq<Message>)
    requires LogName(path).Some?
    requires GetLogPath(cwd, logdir, LogName(path).value).Success?
    requires GetLogPath(cwd, logdir, LogName(path).value).value !in fs
    ensures WsTail(cwd, logdir, path, fs, decode, render, bus) == Live(LogName(path).value, render, bus)
  {
    assert Rendered(LogName(path).value, render, []) == [];
  }

  /**
   * An existing file contributes the lines of its last `min(READBACK_LEN, size)`
   * bytes, decoded; bytes that do not decode end the session before anything is sent.
   */
  lemma {:induction false} HistoryIsTailWindow(
    cwd: seq<Segment>, logdir: string, logname: string, fs: FileSystem,
    decode: seq<byte> -> Option<string>, file: seq<Segment>)
    requires GetLogPath(cwd, logdir, logname) == Success(file)
    requires file in fs
    ensures var window := fs[file][|fs[file]| - Min(ReadbackLen, |fs[file]|)..];
            History(cwd, logdir, logname, fs, decode)
            == match decode(window)
               case None => Failure(UnicodeDecodeError)
               case Some(text) => Success(SplitLines(text))
  {
  }

  /** With no log files on disk no session has history, whatever the name. */
  lemma {:induction false} NoFilesNoHistory(
    cwd: seq<Segment>, logdir: string, logname: string, decode: seq<byte> -> Option<string>)
    ensures History(cwd, logdir, logname, map[], decode) == Success([])
  {
  }

  /** A session without history lines is its live phase alone. */
  lemma {:induction false} NoHistoryIsLive(
    cwd: seq<Segment>, logdir: string, path: string, fs: FileSystem,
    decode: seq<byte> -> Option<string>, render: string -> string, bus: seq<Message>, logname: string)
    requires LogName(path) == Some(logname)
    requires History(cwd, logdir, logname, fs, decode) == Success([])
    ensures WsTail(cwd, logdir, path, fs, decode, render, bus) == Live(logname, render, bus)
  {
    assert Rendered(logname, render, []) == [];
  }

  /** The live phase over a single message with a source. */
  lemma {:induction false} LiveOneMessage(logname: string, render: string -> string, m: Message, source: string)
    requires Source(m.channel) == Some(source)
    ensures Live(logname, render, [m])
            == Transcript(if source == logname then [Record(logname, render(m.payload))] else [], None)
  {
    assert [m][1..] == [];
  }

  /**
   * A message published for `source` reaches a fresh session (no history on
   * disk) as `{source, render(payload)}` when the session watches `source`,
   * and a session watching any other log receives nothing from it.
   */
  lemma {:induction false} PublishReachesOnlyItsViewers(
    cwd: seq<Segment>, logdir: string, decode: seq<byte> -> Option<string>, render: string -> string,
    prefix: string, source: string, payload: string, viewer: string)
    requires ChannelSep !in prefix
    ensures var bus := [Message(Topic(prefix, source), payload)];
            WsTail(cwd, logdir, [PathSep] + viewer, map[], decode, render, bus)
            == Transcript(if viewer == source then [Record(source, render(payload))] else [], None)
  {
    var m := Message(Topic(prefix, source), payload);
    TopicRoundTrip(prefix, source);
    AfterFirstInverse("", PathSep, viewer);
    assert "" + [PathSep] + viewer == [PathSep] + viewer;
    NoFilesNoHistory(cwd, logdir, viewer, decode);
    NoHistoryIsLive(cwd, logdir, [PathSep] + viewer, map[], decode, render, [m], viewer);
    LiveOneMessage(viewer, render, m, source);
  }
}

=== FILE: Tail.dfy ===
/**
 * The history window a viewer is seeded with: the last `READBACK_LEN` bytes
 * of the log file, or all of it when it is shorter.
 */
module Tail {

  type byte = b: int | 0 <= b < 256

  /** `READBACK_LEN = 79 * 1000`. */
  const ReadbackLen: nat := 79 * 1000

  function Min(a: nat, b: nat): nat
  {
    if a <= b then a else b
  }

  /**
   * Where the read starts: `f.seek(-min(READBACK_LEN, size), 2)` positions
   * the file that many bytes before its end.
   */
  function SeekOffset(size: nat): (off: nat)
    ensures off <= size
    ensures size - off <= ReadbackLen
    ensures off > 0 ==> size - off == ReadbackLen
  {
    size - Min(ReadbackLen, size)
  }

  /** `f.read()` after the seek: the bytes from the offset to the end of the file. */
  function ReadBack(file: seq<byte>): (window: seq<byte>)
    ensures |window| == Min(ReadbackLen, |file|)
    ensures window == file[|file| - |window|..]
  {
    file[SeekOffset(|file|)..]
  }

  /** A file no longer than the window is read whole. */
  lemma {:induction false} ShortFileReadWhole(file: seq<byte>)
    requires |file| <= ReadbackLen
    ensures ReadBack(file) == file
  {
  }

  /** Any suffix the window could hold is inside the window. */
  lemma {:induction false} ReadBackKeepsRecentSuffix(file: seq<byte>, recent: seq<byte>)
    requires |recent| <= ReadbackLen
    requires |recent| <= |file| && file[|file| - |recent|..] == recent
    ensures var w := ReadBack(file);
            |recent| <= |w| && w[|w| - |recent|..] == recent
  {
    var w := ReadBack(file);
    assert w[|w| - |recent|..] == file[|file| - |recent|..];
  }

  /**
   * Appending to the file moves the window along: the window of `f + g`
   * depends on `f` only through the window of `f`.
   */
  lemma {:induction false} ReadBackAfterAppend(f: seq<byte>, g: seq<byte>)
    ensures ReadBack(f + g) == ReadBack(ReadBack(f) + g)
  {
    var wf := ReadBack(f);
    var a := ReadBack(f + g);
    var b := ReadBack(wf + g);
    assert |a| == |b|;
    forall i | 0 <= i < |a|
      ensures a[i] == b[i]
    {
      var j := |f + g| - |a| + i;
      var k := |wf + g| - |b| + i;
      if j >= |f| {
        assert a[i] == g[j - |f|] == b[i];
      } else {
        assert a[i] == f[j] == wf[k] == b[i];
      }
    }
  }
}

=== FILE: Text.dfy ===
/** Character searches and `str.split(c)` over strings. */
module Text {

  /** Position of the first `c` in `s`. */
  function IndexOf(s: string, c: char): (i: nat)
    requires c in s
    ensures i < |s| && s[i] == c
    ensures c !in s[..i]
  {
    if s[0] == c then 0
    else
      assert c in s[1..] by {
        var k :| 0 <= k < |s| && s[k] == c;
        assert s[1..][k - 1] == c;
      }
      var j := IndexOf(s[1..], c);
      assert s[..j + 1] == [s[0]] + s[1..][..j];
      j + 1
  }

  /** `s.split(c)`: the pieces between consecutive occurrences of `c`. */
  function SplitOn(s: string, c: char): (parts: seq<string>)
    ensures |parts| > 0
    ensures forall k :: 0 <= k < |parts| ==> c !in parts[k]
    decreases |s|
  {
    if c !in s then [s]
    else
      var i := IndexOf(s, c);
      [s[..i]] + SplitOn(s[i + 1..], c)
  }

  /** `c.join(parts)`. */
  function JoinWith(parts: seq<string>, c: char): string
  {
    if |parts| == 0 then ""
    else if |parts| == 1 then parts[0]
    else parts[0] + [c] + JoinWith(parts[1..], c)
  }

  /** The first `c` in `head + [c] + tail` is the one after `head` when `head` has none. */
  lemma {:induction false} IndexOfAfterHead(head: string, c: char, tail: string)
    requires c !in head
    ensures IndexOf(head + [c] + tail, c) == |head|
  {
    var s := head + [c] + tail;
    assert s[|head|] == c;
    assert forall k :: 0 <= k < |head| ==> s[k] == head[k];
  }

  /** Splitting peels off the piece before the first separator. */
  lemma {:induction false} SplitOnCons(head: string, c: char, tail: string)
    requires c !in head
    ensures SplitOn(head + [c] + tail, c) == [head] + SplitOn(tail, c)
  {
    var s := head + [c] + tail;
    IndexOfAfterHead(head, c, tail);
    assert s[..|head|] == head;
    assert s[|head| + 1..] == tail;
  }

  /** Joining the pieces of a split gives back the string. */
  lemma {:induction false} JoinSplit(s: string, c: char)
    ensures JoinWith(SplitOn(s, c), c) == s
    decreases |s|
  {
    if c in s {
      var i := IndexOf(s, c);
      var rest := s[i + 1..];
      JoinSplit(rest, c);
      assert SplitOn(s, c)[1..] == SplitOn(rest, c);
      assert s == s[..i] + [c] + rest;
    }
  }

  /** Splitting a join of separator-free pieces gives back the pieces. */
  lemma {:induction false} SplitJoin(parts: seq<string>, c: char)
    requires |parts| > 0
    requires forall k :: 0 <= k < |parts| ==> c !in parts[k]
    ensures SplitOn(JoinWith(parts, c), c) == parts
  {
    if |parts| > 1 {
      var tail := JoinWith(parts[1..], c);
      var s := parts[0] + [c] + tail;
      IndexOfAfterHead(parts[0], c, tail);
      assert s[..|parts[0]|] == parts[0];
      assert s[|parts[0]| + 1..] == tail;
      SplitJoin(parts[1..], c);
    }
  }

  /** `x` ends with `suffix`. */
  predicate EndsWith(x: string, suffix: string)
  {
    |suffix| <= |x| && x[|x| - |suffix|..] == suffix
  }

  /** The last piece `s.split(c)` yields. */
  function LastPiece(s: string, c: char): string
  {
    var parts := SplitOn(s, c);
    parts[|parts| - 1]
  }

  /** The last piece of a split ends with any separator-free tail `t` of the string. */
  lemma {:induction false} LastPieceKeepsSuffix(head: string, t: string, c: char)
    requires c !in t
    ensures EndsWith(LastPiece(head + t, c), t)
  {
    var s := head + t;
    var parts := SplitOn(s, c);
    var last := parts[|parts| - 1];
    JoinSplit(s, c);
    JoinEndsWithLast(parts, c);
    if |last| < |t| {
      assert false;
    }
    assert last[|last| - |t|..] == s[|s| - |last|..][|last| - |t|..] == s[|s| - |t|..];
  }

  /** A join ends with its last piece, and with the separator just before it when there are several. */
  lemma {:induction false} JoinEndsWithLast(parts: seq<string>, c: char)
    requires |parts| > 0
    ensures var j, last := JoinWith(parts, c), parts[|parts| - 1];
            EndsWith(j, last) && (|parts| > 1 ==> |last| < |j| && j[|j| - |last| - 1] == c)
    decreases |parts|
  {
    if |parts| > 1 {
      var rest := JoinWith(parts[1..], c);
      JoinEndsWithLast(parts[1..], c);
      var j, last := JoinWith(parts, c), parts[|parts| - 1];
      assert j == parts[0] + [c] + rest;
      assert j[|j| - |rest|..] == rest;
      assert j[|j| - |rest| - 1] == c;
    }
  }
}

=== FILE: Topics.dfy ===
/**
 * Names carried by requests and bus channels: the viewer's log name is the
 * request path after its first `/`, and a message's source is its channel
 * after its first `:`.
 */
module Topics {
  import opened Wrappers
  import Text

  const PathSep: char := '/'
  const ChannelSep: char := ':'

  /** A published message: its channel and its payload. */
  datatype Message = Message(channel: string, payload: string)

  /** `tail` is what follows the first `sep` in `s`. */
  predicate FollowsFirst(s: string, sep: char, tail: string)
  {
    var k := |s| - |tail|;
    0 < k && s[k - 1] == sep && sep !in s[..k - 1] && s[k..] == tail
  }

  /**
   * `s.split(sep, 1)[1]`: everything after the first `sep`, later separators
   * included; `None` where Python raises `IndexError`.
   */
  function AfterFirst(s: string, sep: char): (r: Option<string>)
    ensures r.Some? <==> sep in s
    ensures r.Some? ==> FollowsFirst(s, sep, r.value)
  {
    if sep in s then Some(s[Text.IndexOf(s, sep) + 1..]) else None
  }

  /** The log a viewer asks for: `path.split("/", 1)[1]`. */
  function LogName(path: string): (r: Option<string>)
    ensures r.Some? <==> PathSep in path
    ensures r.Some? ==> FollowsFirst(path, PathSep, r.value)
  {
    AfterFirst(path, PathSep)
  }

  /** The source a bus message belongs to: `channel.split(":", 1)[1]`. */
  function Source(channel: string): (r: Option<string>)
    ensures r.Some? <==> ChannelSep in channel
    ensures r.Some? ==> FollowsFirst(channel, ChannelSep, r.value)
  {
    AfterFirst(channel, ChannelSep)
  }

  /** The channel a publisher uses for `source` under `prefix`. */
  function Topic(prefix: string, source: string): string
  {
    prefix + [ChannelSep] + source
  }

  /**
   * Channels delivered by the pattern subscription `<prefix>:*`, for a
   * prefix free of the glob characters `*`, `?`, `[`, `]` and `\`; the
   * pattern is matched as a glob, so for other prefixes this literal
   * prefix test is not the set of delivered channels.
   */
  predicate Subscribed(prefix: string, channel: string)
    ensures Subscribed(prefix, channel) <==> exists source :: channel == Topic(prefix, source)
  {
    var head := prefix + [ChannelSep];
    if head <= channel then
      assert channel == Topic(prefix, channel[|head|..]);
      true
    else false
  }

  /** Splitting after the first separator undoes prefixing a separator-free head. */
  lemma {:induction false} AfterFirstInverse(head: string, sep: char, tail: string)
    requires sep !in head
    ensures AfterFirst(head + [sep] + tail, sep) == Some(tail)
  {
    Text.IndexOfAfterHead(head, sep, tail);
    assert (head + [sep] + tail)[|head| + 1..] == tail;
  }

  /** A publisher's channel yields its source back, colons in the source included. */
  lemma {:induction false} TopicRoundTrip(prefix: string, source: string)
    requires ChannelSep !in prefix
    ensures Source(Topic(prefix, source)) == Some(source)
  {
    AfterFirstInverse(prefix, ChannelSep, source);
  }

  /** Every channel the subscription delivers has a source. */
  lemma {:induction false} SubscribedHasSource(prefix: string, channel: string)
    requires Subscribed(prefix, channel)
    ensures Source(channel).Some?
    ensures ChannelSep !in prefix ==> Source(channel) == Some(channel[|prefix| + 1..])
  {
    assert channel[|prefix|] == ChannelSep;
    if ChannelSep !in prefix {
      assert channel == prefix + [ChannelSep] + channel[|prefix| + 1..];
      AfterFirstInverse(prefix, ChannelSep, channel[|prefix| + 1..]);
    }
  }

  /**
   * A prefix that itself contains `:` shifts the split: the source read back
   * is never the one published.
   */
  lemma {:induction false} ColonInPrefixMisattributes(prefix: string, source: string)
    requires ChannelSep in prefix
    ensures Source(Topic(prefix, source)).Some?
    ensures Source(Topic(prefix, source)) != Some(source)
  {
    var i := Text.IndexOf(prefix, ChannelSep);
    var head, rest := prefix[..i], prefix[i + 1..] + [ChannelSep] + source;
    assert prefix == head + [ChannelSep] + prefix[i + 1..];
    assert Topic(prefix, source) == head + [ChannelSep] + rest;
    AfterFirstInverse(head, ChannelSep, rest);
    assert |rest| > |source|;
  }

  /** The request path `/live/x` names the log `live/x`. */
  lemma {:induction false} RequestPathExample()
    ensures LogName("/live/x") == Some("live/x")
  {
    AfterFirstInverse("", PathSep, "live/x");
    assert "" + [PathSep] + "live/x" == "/live/x";
  }
}

=== FILE: Wrappers.dfy ===
/** Failure-carrying wrappers used in place of Python's `None` results and exceptions. */
module Wrappers {

  /** A value that may be absent. */
  datatype Option<+T> = None | Some(value: T)

  /** Either a value or the error that stopped its computation. */
  datatype Result<+R, +E> = Success(value: R) | Failure(error: E)
}
